=== FILE: README.md ===
# Connection resolution for `revlibs.connections`

A Dafny model of the connection-resolution logic in
`connections/revlibs/connections/connectors.py`. This code turns a named
connection configuration into a live database handle, for two engines:

- **Exasol** (`ConnectExasol`): the analytic engine. There is one driver attempt. The DSN goes to the driver verbatim, together with an extra-parameter map built from the configuration. A driver exception is re-raised unchanged.
- **Postgres** (`ConnectPostgres`): the relational engine. The DSN is a comma-separated list of `host:port` tokens. A generator rewrites each token lazily as the libpq fragment `host=<host> port=<port>`. The fragments are tried in order. An `OperationalError` moves on to the next fragment, and the first handle ends the loop.
- **`get`**: a generator-based context manager. It looks the flavour up in the fixed table `_CONNECTORS`, builds the connector, calls `connect()` once, yields the handle and then calls `close()`. There is no `try`/`finally`, so `close()` runs only when the caller's block finishes normally.

Files and modules:

- `wrappers.dfy` (`Wrappers`): `Option` and `Result`.
- `pystr.dfy` (`PyStr`): Python's `str.split(sep)` with an explicit separator, which keeps empty pieces. It also defines its inverse `sep.join`, with the lemmas relating the two.
- `types.dfy` (`Types`): configuration values with Python truthiness, the configuration record, handles, driver calls, the exceptions that can escape, connector state, and `close()`.
- `dsn.dfy` (`Dsn`): `_parse_dsn`. Each token's result is kept separately, so a malformed token only matters once the loop reaches it.
- `exasol.dfy` (`Exasol`): the extra-parameter merge and `ConnectExasol.connect`.
- `postgres.dfy` (`Postgres`): the failover loop. It is written as a function, as the loop the source writes, and as lemmas about where the loop stops.
- `resolver.dfy` (`Resolver`): `_CONNECTORS`, `get` as an event trace (`ConnectCalled`, `Yielded`, `Closed`) plus the driver calls made, and the scenarios of the test file.

The drivers are oracles:

- The Exasol driver gives one reply.
- The Postgres driver is a total function from attempt number to reply. Each fragment is attempted at most once and in order, so attempt `i` is made on fragment `i`.
- A handle is an opaque `Handle(id)`.
- The configuration that `config.load(name)` would return is a parameter of `get`.

Behaviour of `connectors.py` worth knowing:

- Every attempt failing does not raise a dedicated "all hosts failed" error and does not re-raise the last driver error. `self.connection` was never assigned, so `return self.connection` raises `AttributeError`.
- A malformed token is not rejected up front. Its unpacking `ValueError` appears only when the loop reaches that token, after every earlier fragment failed. A malformed token after a successful host is never read.
- Exasol driver errors are not rewrapped into error kinds. The two `except` clauses log and re-raise the exception unchanged.
- `close()` is not guaranteed. If the caller's block raises, the exception passes through the `yield` and `close()` never runs.
- A flavour missing from the table always raises `KeyError`. The `else: yield None` branch cannot run, because connector instances are always truthy, so there is no disabled-connector path.

## Model

| member | source | states |
|---|---|---|
| PyStr.Split | connections/revlibs/connections/connectors.py:70-72 | `str.split(sep)`: at least one piece, and no piece contains the separator |
| PyStr.SplitCount | connections/revlibs/connections/connectors.py:72 | there is exactly one more piece than there are separators, so `host, port = tok.split(":")` unpacks exactly when `tok` holds one colon |
| PyStr.JoinSplit | connections/revlibs/connections/connectors.py:70 | joining the pieces of a split with the separator gives back the original string |
| PyStr.SplitJoin | connections/revlibs/connections/connectors.py:70 | splitting a join of separator-free pieces gives back those pieces, in order |
| PyStr.SplitAtSeparator | connections/revlibs/connections/connectors.py:70 | the pieces of `a + sep + b` are the pieces of `a` followed by the pieces of `b` |
| Dsn.ParseToken | connections/revlibs/connections/connectors.py:72-73 | a token yields a fragment exactly when it has one colon, and that fragment is `host=<h> port=<p>` for the colon-free halves of the token; otherwise the unpacking error, which records the part count; the port is not checked |
| Dsn.ParseDsn | connections/revlibs/connections/connectors.py:64-73 | one result per comma-separated token (separators + 1 of them); the only errors are unpacking errors |
| Dsn.ParseTokenOfEndpoint | connections/revlibs/connections/connectors.py:72-73 | the token `host:port` of colon-free parts parses to `host=<host> port=<port>` |
| Dsn.ParseDsnOfEndpoints | connections/revlibs/connections/connectors.py:70-73 | a DSN of n endpoints parses to n fragments in input order, the i-th naming exactly the i-th host and port |
| Dsn.TrailingCommaIsMalformed | connections/revlibs/connections/connectors.py:70-72 | a trailing comma adds an empty last token, which fails to unpack (one part) |
| Dsn.ParseDsnAppend | connections/revlibs/connections/connectors.py:70-71 | the fragments of `a + "," + b` are those of `a` followed by those of `b` |
| Dsn.ParseDsnOfTokens | connections/revlibs/connections/connectors.py:70-73 | for any comma-free tokens, result i of parsing their comma-joined DSN is the parse of token i, so a malformed token anywhere, not only at the end, is an error in its own position |
| Exasol.ExtraParams | connections/revlibs/connections/connectors.py:24-29 | the keys are exactly compression, schema when a truthy schema is configured, and the configured params; configured params win on collision; otherwise compression is true and schema is the configured value |
| Exasol.SchemaGiven | connections/revlibs/connections/connectors.py:24-26 | a `schema` key is added exactly when the configuration holds a schema that is not `None`, `False`, `0` or empty |
| Exasol.DriverCall | connections/revlibs/connections/connectors.py:31-38 | the analytic driver receives the DSN verbatim, the configured user and password, and extra keywords whose clashes with the explicit keywords are exactly `Exasol.Clash` |
| Exasol.Clash | connections/revlibs/connections/connectors.py:29-38 | the repeated keywords that make the call raise `TypeError` are exactly the configured params named `dsn`, `user`, `password`, `fetch_dict` or `fetch_mapper`; `compression` and `schema` never clash |
| Exasol.DefaultExtraParams | connections/tests/connectors_test.py:75-82 | with no params and no schema the extra map is exactly `{compression: true}` |
| Exasol.SchemaExtraParams | connections/tests/connectors_test.py:93-101 | with schema `s` and no params the extra map is exactly `{compression: true, schema: s}` |
| Exasol.Connect | connections/revlibs/connections/connectors.py:22-49 | at most one driver call, with the DSN verbatim; success stores and returns the driver's handle; a driver failure escapes unchanged with the connector unchanged; a params key that repeats an explicit keyword raises before any call |
| Types.Close | connections/revlibs/connections/connectors.py:93-95 | close succeeds exactly when a handle was assigned, closing that handle; otherwise `AttributeError` |
| Types.Truthy | connections/revlibs/connections/connectors.py:26 | Python truthiness of a configuration value: falsy exactly for `None`, `False`, `0` and the empty string |
| Postgres.DbName | connections/revlibs/connections/connectors.py:77 | `dbname` is the configured value when the key is present and `None` otherwise |
| Postgres.Attempt | connections/revlibs/connections/connectors.py:80-86 | the relational driver receives the fragment as its first argument, the configured user and password, `DbName` and the configured params |
| Postgres.AttemptsShareArguments | connections/revlibs/connections/connectors.py:80-86 | two attempts differ only in their fragment, and are equal exactly when the fragments are |
| Postgres.Clash | connections/revlibs/connections/connectors.py:80-86 | the repeated keywords that make the call raise `TypeError` are among `user`, `password`, `dbname`, and there are none exactly when the params name none of them |
| Postgres.Failover | connections/revlibs/connections/connectors.py:78-90 | a pass from fragment i never makes more attempts than there are fragments left |
| Postgres.FailoverAttempts | connections/revlibs/connections/connectors.py:78-90 | attempts go to fragments i, i+1, ... in order, each with the same user, password, dbname and params; all but the last met `OperationalError`; a found handle is the last attempt's; an exhausted pass tried every fragment; an escaping exception is a keyword clash, a non-operational driver error or the next fragment's parse error |
| Postgres.FailoverRaised | connections/revlibs/connections/connectors.py:78-90 | a pass that raises either had its last attempt meet a non-operational driver exception, which escapes as that exception, or had every attempt meet `OperationalError` and then stopped at the next fragment, on its parse error or on a keyword clash before any attempt |
| Postgres.FailoverLoop | connections/revlibs/connections/connectors.py:78-90 | the loop as written, pulling fragments one at a time and breaking on the first handle, computes the same pass as `Failover` |
| Postgres.Finish | connections/revlibs/connections/connectors.py:80-91 | a handle is returned exactly when the pass found one or the pass was exhausted on a connector that already held one; a found handle is stored and returned, even over an earlier one; an exhausted pass returns the earlier handle and on a fresh connector raises `AttributeError`; an exception raised by the pass escapes unchanged and leaves the connector as it was |
| Postgres.Connect | connections/revlibs/connections/connectors.py:75-91 | the calls are the parsed fragments in order with identical credentials, dbname and params; on a fresh connector a handle is the last attempt's reply after only `OperationalError`s, and `AttributeError` means every fragment was attempted once and failed; any exception leaves the connector unchanged; the only exceptions are `AttributeError`, an unpacking error, a driver error and a keyword clash; an unpacking error is the error of the fragment right after the attempts, raised only after every attempt failed operationally; a driver error is the last reply's; a `DuplicateKeyword` error comes with no attempts (`Postgres.ClashRaises` and `Postgres.OtherErrorEscapes` give the converse directions) |
| Postgres.FailoverSkip | connections/revlibs/connections/connectors.py:88-90 | fragments that fail operationally add one attempt each and do not change how the pass ends |
| Postgres.FirstSuccessWins | connections/revlibs/connections/connectors.py:78-87 | if fragment k is the first the driver accepts, the result is its handle after exactly k+1 attempts, and it is stored on the connector |
| Postgres.OtherErrorEscapes | connections/revlibs/connections/connectors.py:78-90 | when fragment k is reached after only operational failures and the driver raises anything other than `OperationalError`, that exception escapes unchanged after k+1 attempts and the connector is left as it was |
| Postgres.ClashRaises | connections/revlibs/connections/connectors.py:80-86 | a `params` key repeating `user`, `password` or `dbname` means the driver is never called and `connect` raises with the connector unchanged; when the first token parses, the exception is the repeated-keyword `TypeError` |
| Postgres.AllHostsFail | connections/revlibs/connections/connectors.py:78-91 | when every fragment fails operationally, each is attempted once and a fresh connector raises `AttributeError` |
| Postgres.AllHostsFailKeepsStaleHandle | connections/revlibs/connections/connectors.py:91 | on a connector that already holds a handle, an all-failing pass returns that earlier handle |
| Postgres.MalformedTokenRaisesWhenReached | connections/revlibs/connections/connectors.py:71-78 | a malformed token k raises its unpacking error after exactly k attempts, once every earlier fragment has failed |
| Postgres.FoundIgnoresLaterFragments | connections/revlibs/connections/connectors.py:78-87 | once a handle is found, fragments after the winning one are never read |
| Postgres.MalformedTailIgnored | connections/revlibs/connections/connectors.py:70-87 | appending any tokens, malformed or not, after a DSN whose pass found a handle changes neither the attempts nor the result |
| Resolver.Lookup | connections/revlibs/connections/connectors.py:98-109 | exactly `exasol` and `postgres` resolve, each to its own class; any other flavour raises `KeyError` naming it |
| Resolver.Connect | connections/revlibs/connections/connectors.py:111-113 | dispatch keeps the connector's class and configuration, and a returned handle is the one stored on the connector |
| Resolver.ConnectThenClose | connections/revlibs/connections/connectors.py:49-95 | for either class, `close()` after a successful `connect()` closes exactly the handle `connect()` returned |
| Resolver.Get | connections/revlibs/connections/connectors.py:101-116 | an unknown flavour gives an empty trace, no calls and `KeyError`; otherwise the trace starts with connect, the calls are the connector's, a failing connect stops there with its error, and the trace is at most connect, yield, close; after a successful connect the `with` statement raises nothing exactly when the block completes; close occurs exactly when nothing is raised, and then it closes the yielded handle; a raising block escapes with its own exception |
| Resolver.GetCompletes | connections/revlibs/connections/connectors.py:111-114 | for every configuration whose flavour resolves and whose connect succeeds, a completing block gives exactly connect, yield h, close h with the connector's calls and no exception |
| Resolver.GetBlockRaises | connections/revlibs/connections/connectors.py:111-114 | after a successful connect, a raising block gives connect and yield only: its exception escapes and `close()` is never called |
| Resolver.TwoEndpointDsn | connections/revlibs/connections/connectors.py:70-73 | `h1:p1,h2:p2` parses to the two fragments in order |
| Resolver.PostgresGetCompletes | connections/revlibs/connections/connectors.py:111-114 | when fragment k is the first accepted and the block completes, the trace is connect, yield h, close h after k+1 attempts on fragments 0..k |
| Resolver.SimplePostgres | connections/tests/connectors_test.py:27-37 | one endpoint that accepts: one call with its fragment, `dbname=None` and the test credentials; then connect, yield, close |
| Resolver.MultiServerPostgres | connections/tests/connectors_test.py:41-65 | the first host refuses and the second accepts: two calls in order with identical credentials, and the second host's handle is yielded and closed |
| Resolver.EmptySchemaExasol | connections/tests/connectors_test.py:69-83 | with the schema absent or falsy (an empty string included) and no params, the analytic driver receives the DSN, the credentials and only `compression = true`, and the handle is closed |
| Resolver.MultiServerExasol | connections/tests/connectors_test.py:87-102 | a multi-host analytic DSN is passed unsplit, with `schema = "s"` beside compression |
| Resolver.ExasolFailurePropagates | connections/revlibs/connections/connectors.py:39-48 | an analytic driver failure escapes `get` unchanged after the single call; nothing is yielded or closed |
| Resolver.AllHostsFailInGet | connections/revlibs/connections/connectors.py:111-113 | when every relational host fails, `get` raises `AttributeError` after one attempt per fragment; the block never runs and nothing is closed |

## Left out

- `config.load` and its environment-variable-driven configuration directory: they are file I/O. The loaded record is a parameter of `Resolver.Get`, and `params` is assumed present, which may be empty.
- `psycopg2` and `pyexasol`: these are foreign network libraries. They are replaced by reply oracles. The relational oracle answers by attempt number, not by the call's arguments. Any reply sequence can be expressed this way.
- `fetch_dict=True` and `fetch_mapper=pyexasol.exasol_mapper`: these are constant pass-throughs. They appear only as reserved keywords in `Exasol.CallKeywords`.
- Logging (`log.error`, `log.exception`): it has no effect on behaviour.
- `handle.close()` raising inside the driver: it is not modelled, because the driver is opaque.
- Python's `@contextmanager` machinery itself: it is represented by the event trace. An exception from the caller's block is modelled as passing through the `yield` unchanged.
- The `else: yield None` branch of `get` is unreachable, because connector instances are always truthy. It is not modelled.
- Configuration values are scalars: none, bool, int and string. List or mapping values in `schema`, `dbname` or `params` are not modelled.
- Postgres.Connect: a `params` key named `dsn` clashes with `psycopg2.connect`'s own first parameter. This is not modelled, because it depends on the driver's signature rather than on this call site. Only the keywords that the call site itself passes count as clashes.
- Repeated keywords: Python's `TypeError` for a repeated keyword names one keyword. `DuplicateKeyword` carries the whole set of repeated keywords.

=== FILE: dsn.dfy ===
/** Parsing of a relational DSN: a comma-separated list of `host:port`
    tokens, each rewritten as the libpq fragment `host=<host> port=<port>`.

    The source produces the fragments from a generator, so a malformed token
    raises only when the consumer asks for that fragment. The model therefore
    parses to one `Result` per token, in order; the failover loop decides how
    far into this sequence it reads. */
module Dsn {
  import opened Wrappers
  import opened PyStr
  import opened Types

  /** One endpoint of a DSN. */
  datatype Endpoint = Endpoint(host: string, port: string)

  /** The libpq fragment produced for one endpoint. */
  function Fragment(host: string, port: string): string {
    "host=" + host + " port=" + port
  }

  /** The DSN token written for one endpoint. */
  function Token(e: Endpoint): string {
    e.host + ":" + e.port
  }

  /** The DSN listing `endpoints` in order, separated by commas. */
  function DsnOf(endpoints: seq<Endpoint>): string
    requires |endpoints| >= 1
  {
    Join(seq(|endpoints|, i requires 0 <= i < |endpoints| => Token(endpoints[i])), ',')
  }

  /** An endpoint that can be written into a DSN and read back unchanged. */
  predicate Plain(e: Endpoint) {
    ',' !in e.host && ':' !in e.host && ',' !in e.port && ':' !in e.port
  }

  /** `host, port = token.split(":")` followed by the fragment format. The
      unpacking succeeds exactly when the token holds one colon; otherwise it
      raises `ValueError`, whose part count the model records (Python's own
      message gives the count only when there are too few parts). The port is
      not checked to be numeric. */
  function ParseToken(token: string): (r: Result<string, Error>)
    ensures r.Ok? <==> multiset(token)[':'] == 1
    ensures r.Err? ==> r.error == UnpackError(multiset(token)[':'] + 1)
    ensures r.Ok? ==> exists host, port ::
      ':' !in host && ':' !in port && token == host + ":" + port && r.value == Fragment(host, port)
  {
    var parts := Split(token, ':');
    SplitCount(token, ':');
    if |parts| == 2 then
      JoinSplit(token, ':');
      assert token == parts[0] + ":" + parts[1];
      assert ':' !in parts[0] && ':' !in parts[1];
      Ok(Fragment(parts[0], parts[1]))
    else
      Err(UnpackError(|parts|))
  }

  /** The fragments of `dsn`, one per comma-separated token, in order. */
  function ParseDsn(dsn: string): (frags: seq<Result<string, Error>>)
    ensures |frags| == multiset(dsn)[','] + 1
    ensures forall i :: 0 <= i < |frags| && frags[i].Err? ==> frags[i].error.UnpackError?
  {
    var tokens := Split(dsn, ',');
    SplitCount(dsn, ',');
    seq(|tokens|, i requires 0 <= i < |tokens| => ParseToken(tokens[i]))
  }

  /** A well-formed token parses to the fragment naming its host and port. */
  lemma ParseTokenOfEndpoint(e: Endpoint)
    requires ':' !in e.host && ':' !in e.port
    ensures ParseToken(Token(e)) == Ok(Fragment(e.host, e.port))
  {
    assert Token(e) == e.host + [':'] + e.port;
    SplitAtSeparator(e.host, e.port, ':');
    SplitWithoutSeparator(e.host, ':');
    SplitWithoutSeparator(e.port, ':');
    SplitCount(Token(e), ':');
  }

  /** Parsing a DSN of n endpoints yields n fragments, in input order, the
      i-th naming exactly the i-th host and port. */
  lemma ParseDsnOfEndpoints(endpoints: seq<Endpoint>)
    requires |endpoints| >= 1
    requires forall i :: 0 <= i < |endpoints| ==> Plain(endpoints[i])
    ensures |ParseDsn(DsnOf(endpoints))| == |endpoints|
    ensures forall i :: 0 <= i < |endpoints| ==>
      ParseDsn(DsnOf(endpoints))[i] == Ok(Fragment(endpoints[i].host, endpoints[i].port))
  {
    var tokens := seq(|endpoints|, i requires 0 <= i < |endpoints| => Token(endpoints[i]));
    forall i | 0 <= i < |tokens|
      ensures ',' !in tokens[i]
    {
      assert tokens[i] == endpoints[i].host + [':'] + endpoints[i].port;
    }
    SplitJoin(tokens, ',');
    forall i | 0 <= i < |endpoints|
      ensures ParseDsn(DsnOf(endpoints))[i] == Ok(Fragment(endpoints[i].host, endpoints[i].port))
    {
      ParseTokenOfEndpoint(endpoints[i]);
    }
  }

  /** A trailing comma leaves an empty last token, which is malformed: it
      splits on `:` into a single part. */
  lemma TrailingCommaIsMalformed(dsn: string)
    ensures var frags := ParseDsn(dsn + ",");
      |frags| >= 2 && frags[|frags| - 1] == Err(UnpackError(1))
  {
    assert dsn + "," == dsn + [','] + "";
    SplitAtSeparator(dsn, "", ',');
  }

  /** The fragments of two DSNs joined by a comma are the fragments of the
      first followed by those of the second. */
  lemma ParseDsnAppend(dsn: string, tail: string)
    ensures ParseDsn(dsn + "," + tail) == ParseDsn(dsn) + ParseDsn(tail)
  {
    assert dsn + "," + tail == dsn + [','] + tail;
    SplitAtSeparator(dsn, tail, ',');
  }

  /** For any comma-free tokens, the i-th result of parsing their
      comma-joined DSN is the parse of the i-th token, malformed or not. */
  lemma ParseDsnOfTokens(tokens: seq<string>)
    requires |tokens| >= 1
    requires forall i :: 0 <= i < |tokens| ==> ',' !in tokens[i]
    ensures |ParseDsn(Join(tokens, ','))| == |tokens|
    ensures forall i :: 0 <= i < |tokens| ==> ParseDsn(Join(tokens, ','))[i] == ParseToken(tokens[i])
  {
    SplitJoin(tokens, ',');
  }
}

=== FILE: exasol.dfy ===
/** The analytic connector (`ConnectExasol`): one driver attempt with the DSN
    passed through verbatim and an extra-parameter map built from the
    configuration. */
module Exasol {
  import opened Wrappers
  import opened Types

  /** The keywords the call site passes explicitly; `**params` may not repeat them. */
  const CallKeywords: set<string> := {"dsn", "user", "password", "fetch_dict", "fetch_mapper"}

  /** The driver's answer to the single connection attempt. */
  datatype ExaReply = ExaConnected(h: Handle) | ExaRaised(failure: ExaFailure)

  /** The configuration names a schema that Python would treat as true: an
      absent, `None`, `False`, `0` or empty schema adds no `schema` key. */
  function SchemaGiven(cfg: ConnectionConfig): (g: bool)
    ensures g <==> cfg.schema.Some? && cfg.schema.value !in {VNone, VBool(false), VInt(0), VStr("")}
  {
    cfg.schema.Some? && Truthy(cfg.schema.value)
  }

  /** The extra keyword arguments for the driver: compression on, the schema
      when one is given, and then every configured parameter, which wins over
      both on a key collision. */
  function ExtraParams(cfg: ConnectionConfig): (m: map<string, Value>)
    ensures m.Keys == {"compression"} + (if SchemaGiven(cfg) then {"schema"} else {}) + cfg.params.Keys
    ensures forall k :: k in cfg.params ==> m[k] == cfg.params[k]
    ensures "compression" !in cfg.params ==> m["compression"] == VBool(true)
    ensures SchemaGiven(cfg) && "schema" !in cfg.params ==> m["schema"] == cfg.schema.value
  {
    var base := map["compression" := VBool(true)];
    var withSchema := if SchemaGiven(cfg) then base["schema" := cfg.schema.value] else base;
    withSchema + cfg.params
  }

  /** The call `pyexasol.connect` receives: the DSN verbatim, the credentials
      and the extra parameters. */
  function DriverCall(cfg: ConnectionConfig): (c: Call)
    ensures c.ExaCall? && c.dsn == cfg.dsn && c.user == cfg.user && c.password == cfg.password
    ensures c.extra.Keys * CallKeywords == Clash(cfg)
  {
    ExaCall(cfg.dsn, cfg.user, cfg.password, ExtraParams(cfg))
  }

  /** The names the extra parameters repeat from the explicit keywords. Only a
      configured parameter can clash: `compression` and `schema` are not
      keywords of the call. */
  function Clash(cfg: ConnectionConfig): (s: set<string>)
    ensures s == cfg.params.Keys * CallKeywords
  {
    ExtraParams(cfg).Keys * CallKeywords
  }

  /** `ConnectExasol.connect`: at most one driver call, no retry; a driver
      failure escapes unchanged and leaves the connector as it was; a success
      is stored on the connector and returned. */
  function Connect(c: Connector, reply: ExaReply): (r: ConnectRun)
    ensures r.connector.cls == c.cls && r.connector.cfg == c.cfg
    ensures Clash(c.cfg) == {} ==> r.calls == [DriverCall(c.cfg)]
    ensures Clash(c.cfg) != {} ==> r.calls == [] && r.result == Err(DuplicateKeyword(Clash(c.cfg))) && r.connector == c
    ensures r.result.Ok? <==> Clash(c.cfg) == {} && reply.ExaConnected?
    ensures r.result.Ok? ==> r.result.value == reply.h && r.connector.connection == Some(reply.h)
    ensures Clash(c.cfg) == {} && reply.ExaRaised? ==> r.result == Err(ExaDriverError(reply.failure)) && r.connector == c
  {
    if Clash(c.cfg) != {} then
      ConnectRun([], c, Err(DuplicateKeyword(Clash(c.cfg))))
    else
      match reply
      case ExaConnected(h) => ConnectRun([DriverCall(c.cfg)], c.(connection := Some(h)), Ok(h))
      case ExaRaised(f) => ConnectRun([DriverCall(c.cfg)], c, Err(ExaDriverError(f)))
  }

  /** With no configured parameters and no schema the driver receives only
      `compression = true`. */
  lemma DefaultExtraParams(cfg: ConnectionConfig)
    requires cfg.params == map[] && !SchemaGiven(cfg)
    ensures ExtraParams(cfg) == map["compression" := VBool(true)]
  {
  }

  /** A schema and no configured parameters give exactly compression and schema. */
  lemma SchemaExtraParams(cfg: ConnectionConfig, schema: string)
    requires cfg.params == map[] && cfg.schema == Some(VStr(schema)) && |schema| > 0
    ensures ExtraParams(cfg) == map["compression" := VBool(true), "schema" := VStr(schema)]
  {
  }
}

=== FILE: postgres.dfy ===
/** The relational connector (`ConnectPostgres`): the DSN is parsed lazily
    into libpq fragments and the fragments are tried in order until the
    driver accepts one.

    The driver is an oracle indexed by attempt number. Every fragment is
    attempted at most once and attempts are made in fragment order, so the
    attempt number of fragment `i` is `i`. */
module Postgres {
  import opened Wrappers
  import opened Types
  import Dsn

  /** The keywords the call site passes explicitly; `**params` may not repeat them. */
  const CallKeywords: set<string> := {"user", "password", "dbname"}

  /** The driver's answer to one connection attempt. Only `OperationalError`
      is caught by the failover loop. */
  datatype PgReply = PgConnected(h: Handle) | PgOperationalError | PgOtherError(msg: string)

  /** How the failover loop ended: it broke out with a handle, ran out of
      fragments, or let an exception escape. */
  datatype LoopExit = Found(h: Handle) | Exhausted | Raised(e: Error)

  /** The attempts one pass of the loop made, in order, and how it ended. */
  datatype Pass = Pass(calls: seq<Call>, exit: LoopExit)

  /** The `dbname` keyword: the configured value, or `None` when absent. */
  function DbName(cfg: ConnectionConfig): (v: Value)
    ensures cfg.dbname.Some? ==> v == cfg.dbname.value
    ensures cfg.dbname.None? ==> v == VNone
  {
    cfg.dbname.GetOr(VNone)
  }

  /** The driver call made for one fragment: only the fragment varies. */
  function Attempt(fragment: string, cfg: ConnectionConfig): (c: Call)
    ensures c.PgCall? && c.conninfo == fragment
    ensures c.user == cfg.user && c.password == cfg.password && c.dbname == DbName(cfg) && c.extra == cfg.params
  {
    PgCall(fragment, cfg.user, cfg.password, DbName(cfg), cfg.params)
  }

  /** The configured parameters that repeat an explicit keyword. */
  function Clash(cfg: ConnectionConfig): (s: set<string>)
    ensures s <= CallKeywords
    ensures s == {} <==> "user" !in cfg.params && "password" !in cfg.params && "dbname" !in cfg.params
  {
    var s := cfg.params.Keys * CallKeywords;
    assert "user" in cfg.params ==> "user" in s;
    assert "password" in cfg.params ==> "password" in s;
    assert "dbname" in cfg.params ==> "dbname" in s;
    s
  }

  /** Two attempts differ only in their fragment: the arguments of one are
      those of the other with the fragment replaced, and they are equal
      exactly when the fragments are. */
  lemma AttemptsShareArguments(f: string, g: string, cfg: ConnectionConfig)
    ensures var a := Attempt(f, cfg); a.PgCall? && a.(conninfo := g) == Attempt(g, cfg)
    ensures Attempt(f, cfg) == Attempt(g, cfg) <==> f == g
  {
  }

  /** The loop keeps going past fragment `j`: it parsed, the call was made,
      and the driver raised `OperationalError`. */
  predicate Continues(frags: seq<Result<string, Error>>, j: nat, cfg: ConnectionConfig, driver: nat -> PgReply) {
    j < |frags| && frags[j].Ok? && Clash(cfg) == {} && driver(j) == PgOperationalError
  }

  /** The failover loop, from fragment `i` on. Reading fragment `i` raises
      when its token was malformed; a duplicate keyword raises at the call;
      `OperationalError` moves on to the next fragment; any other driver
      exception escapes; a handle ends the loop. */
  function Failover(frags: seq<Result<string, Error>>, i: nat, cfg: ConnectionConfig, driver: nat -> PgReply): (p: Pass)
    requires i <= |frags|
    ensures i + |p.calls| <= |frags|
    decreases |frags| - i
  {
    if i == |frags| then Pass([], Exhausted)
    else match frags[i]
      case Err(e) => Pass([], Raised(e))
      case Ok(fragment) =>
        if Clash(cfg) != {} then Pass([], Raised(DuplicateKeyword(Clash(cfg))))
        else
          var call := Attempt(fragment, cfg);
          match driver(i)
          case PgConnected(h) => Pass([call], Found(h))
          case PgOtherError(msg) => Pass([call], Raised(PgDriverError(msg)))
          case PgOperationalError =>
            var rest := Failover(frags, i + 1, cfg, driver);
            Pass([call] + rest.calls, rest.exit)
  }

  /** What a pass from fragment `i` did: it attempted fragments `i`, `i+1`,
      ... in order, each with the same credentials and parameters; every
      attempt but the last met `OperationalError`; a found handle is the
      last attempt's; an exhausted pass attempted every remaining fragment. */
  lemma {:induction false} FailoverAttempts(frags: seq<Result<string, Error>>, i: nat, cfg: ConnectionConfig, driver: nat -> PgReply)
    requires i <= |frags|
    ensures var p := Failover(frags, i, cfg, driver);
      && (forall j :: i <= j < i + |p.calls| ==> frags[j].Ok? && p.calls[j - i] == Attempt(frags[j].value, cfg))
      && (forall j :: i <= j < i + |p.calls| - 1 ==> Continues(frags, j, cfg, driver))
      && (p.exit.Found? ==> |p.calls| >= 1 && driver(i + |p.calls| - 1) == PgConnected(p.exit.h))
      && (p.exit.Exhausted? ==> i + |p.calls| == |frags| && forall j :: i <= j < |frags| ==> Continues(frags, j, cfg, driver))
      && (p.exit.Raised? ==>
            || p.exit.e == DuplicateKeyword(Clash(cfg))
            || p.exit.e.PgDriverError?
            || (i + |p.calls| < |frags| && frags[i + |p.calls|] == Err(p.exit.e)))
    decreases |frags| - i
  {
    if i < |frags| {
      FailoverStep(frags, i, cfg, driver);
      if Continues(frags, i, cfg, driver) {
        FailoverAttempts(frags, i + 1, cfg, driver);
      }
    }
  }

  /** How a pass from fragment `i` that raised came to raise. Either its last
      attempt met a driver exception other than `OperationalError`, which
      escapes as it is; or every attempt met `OperationalError` and the loop
      then stopped at the next fragment, because reading that fragment raised
      its parse error or because the call would repeat a keyword, which can
      only happen before any attempt. */
  lemma {:induction false} FailoverRaised(frags: seq<Result<string, Error>>, i: nat, cfg: ConnectionConfig, driver: nat -> PgReply)
    requires i <= |frags|
    ensures var p := Failover(frags, i, cfg, driver);
      var n := |p.calls|;
      p.exit.Raised? ==>
        if n >= 1 && !driver(i + n - 1).PgOperationalError? then
          driver(i + n - 1).PgOtherError? && p.exit.e == PgDriverError(driver(i + n - 1).msg)
        else
          && i + n < |frags|
          && (forall j :: i <= j < i + n ==> Continues(frags, j, cfg, driver))
          && (|| frags[i + n] == Err(p.exit.e)
              || (frags[i + n].Ok? && n == 0 && Clash(cfg) != {} && p.exit.e == DuplicateKeyword(Clash(cfg))))
    decreases |frags| - i
  {
    if i < |frags| {
      FailoverStep(frags, i, cfg, driver);
      if Continues(frags, i, cfg, driver) {
        FailoverRaised(frags, i + 1, cfg, driver);
        var p := Failover(frags, i + 1, cfg, driver);
        assert Failover(frags, i, cfg, driver).calls == [Attempt(frags[i].value, cfg)] + p.calls;
      }
    }
  }

  /** The exceptions a whole pass can raise when the fragments come from
      `_parse_dsn`, whose only failures are unpacking errors, sorted by kind. */
  lemma PassRaised(frags: seq<Result<string, Error>>, cfg: ConnectionConfig, driver: nat -> PgReply)
    requires forall j :: 0 <= j < |frags| && frags[j].Err? ==> frags[j].error.UnpackError?
    ensures var p := Failover(frags, 0, cfg, driver); var n := |p.calls|;
      p.exit.Raised? ==>
        && (p.exit.e.UnpackError? || p.exit.e.PgDriverError? || p.exit.e.DuplicateKeyword?)
        && (p.exit.e.PgDriverError? ==> n >= 1 && driver(n - 1) == PgOtherError(p.exit.e.msg))
        && (p.exit.e.UnpackError? ==>
              n < |frags| && frags[n] == Err(p.exit.e) && forall j :: 0 <= j < n ==> Continues(frags, j, cfg, driver))
        && (p.exit.e.DuplicateKeyword? ==> n == 0 && Clash(cfg) != {} && p.exit.e == DuplicateKeyword(Clash(cfg)))
  {
    FailoverRaised(frags, 0, cfg, driver);
  }

  /** `ConnectPostgres.connect`. A found handle is stored and returned. When
      every fragment failed, `self.connection` is returned as it stands: on a
      fresh connector it was never assigned, so the read raises
      `AttributeError` and the last driver error is not re-raised. */
  function Connect(c: Connector, driver: nat -> PgReply): (r: ConnectRun)
    ensures r.connector.cls == c.cls && r.connector.cfg == c.cfg
    ensures r.result.Ok? ==> r.connector.connection == Some(r.result.value)
    ensures var frags := Dsn.ParseDsn(c.cfg.dsn);
      && |r.calls| <= |frags|
      && (forall j :: 0 <= j < |r.calls| ==> frags[j].Ok? && r.calls[j] == Attempt(frags[j].value, c.cfg))
      && (forall j :: 0 <= j < |r.calls| - 1 ==> Continues(frags, j, c.cfg, driver))
    ensures c.connection.None? && r.result.Ok? ==>
      |r.calls| >= 1 && driver(|r.calls| - 1) == PgConnected(r.result.value)
    ensures c.connection.None? && r.result == Err(AttributeError) ==>
      var frags := Dsn.ParseDsn(c.cfg.dsn);
      |r.calls| == |frags| && forall j :: 0 <= j < |frags| ==> Continues(frags, j, c.cfg, driver)
    ensures r.result.Err? ==> r.connector == c
    ensures r.result.Err? && r.result.error.UnpackError? ==>
      var frags := Dsn.ParseDsn(c.cfg.dsn);
      && |r.calls| < |frags|
      && frags[|r.calls|] == Err(r.result.error)
      && forall j :: 0 <= j < |r.calls| ==> Continues(frags, j, c.cfg, driver)
    ensures r.result.Err? && r.result.error.PgDriverError? ==>
      |r.calls| >= 1 && driver(|r.calls| - 1) == PgOtherError(r.result.error.msg)
    ensures r.result.Err? ==>
      r.result.error.AttributeError? || r.result.error.UnpackError? || r.result.error.PgDriverError? || r.result.error.DuplicateKeyword?
    ensures r.result.Err? && r.result.error.DuplicateKeyword? ==>
      r.calls == [] && Clash(c.cfg) != {} && r.result.error == DuplicateKeyword(Clash(c.cfg))
  {
    var frags := Dsn.ParseDsn(c.cfg.dsn);
    FailoverAttempts(frags, 0, c.cfg, driver);
    PassRaised(frags, c.cfg, driver);
    var p := Failover(frags, 0, c.cfg, driver);
    var r := Finish(c, p);
    assert c.connection.None? && r.result.Ok? ==> p.exit == Found(r.result.value);
    r
  }

  /** One step of the failover loop at fragment `i`. */
  lemma FailoverStep(frags: seq<Result<string, Error>>, i: nat, cfg: ConnectionConfig, driver: nat -> PgReply)
    requires i < |frags|
    ensures frags[i].Err? ==> Failover(frags, i, cfg, driver) == Pass([], Raised(frags[i].error))
    ensures frags[i].Ok? && Clash(cfg) != {} ==>
      Failover(frags, i, cfg, driver) == Pass([], Raised(DuplicateKeyword(Clash(cfg))))
    ensures frags[i].Ok? && Clash(cfg) == {} && driver(i).PgConnected? ==>
      Failover(frags, i, cfg, driver) == Pass([Attempt(frags[i].value, cfg)], Found(driver(i).h))
    ensures frags[i].Ok? && Clash(cfg) == {} && driver(i).PgOtherError? ==>
      Failover(frags, i, cfg, driver) == Pass([Attempt(frags[i].value, cfg)], Raised(PgDriverError(driver(i).msg)))
    ensures Continues(frags, i, cfg, driver) ==>
      Failover(frags, i, cfg, driver) ==
        Pass([Attempt(frags[i].value, cfg)] + Failover(frags, i + 1, cfg, driver).calls, Failover(frags, i + 1, cfg, driver).exit)
  {
  }

  /** The connect result once the loop has produced `p`. */
  function Finish(c: Connector, p: Pass): (r: ConnectRun)
    ensures r.calls == p.calls && r.connector.cls == c.cls && r.connector.cfg == c.cfg
    ensures r.result.Ok? ==> r.connector.connection == Some(r.result.value)
    ensures r.result.Ok? <==> p.exit.Found? || (p.exit.Exhausted? && c.connection.Some?)
    ensures r.result.Ok? ==> r.result.value == if p.exit.Found? then p.exit.h else c.connection.value
    ensures r.result == Err(AttributeError) ==> p.exit.Exhausted? || p.exit == Raised(AttributeError)
    ensures r.result.Err? ==> r.connector == c
    ensures r.result.Err? && r.result.error != AttributeError ==> p.exit == Raised(r.result.error)
  {
    match p.exit
    case Found(h) => ConnectRun(p.calls, c.(connection := Some(h)), Ok(h))
    case Raised(e) => ConnectRun(p.calls, c, Err(e))
    case Exhausted =>
      match c.connection
      case Some(h) => ConnectRun(p.calls, c, Ok(h))
      case None => ConnectRun(p.calls, c, Err(AttributeError))
  }

  /** The `for` loop of `ConnectPostgres.connect` as written: it pulls one
      fragment at a time, breaks on the first handle, and agrees with
      `Failover` from the first fragment. */
  method FailoverLoop(frags: seq<Result<string, Error>>, cfg: ConnectionConfig, driver: nat -> PgReply)
    returns (p: Pass)
    ensures p == Failover(frags, 0, cfg, driver)
  {
    var calls: seq<Call> := [];
    var i := 0;
    while i < |frags|
      invariant i <= |frags|
      invariant Failover(frags, 0, cfg, driver) ==
        Pass(calls + Failover(frags, i, cfg, driver).calls, Failover(frags, i, cfg, driver).exit)
      decreases |frags| - i
    {
      FailoverStep(frags, i, cfg, driver);
      if frags[i].Err? {
        return Pass(calls, Raised(frags[i].error));
      }
      if Clash(cfg) != {} {
        return Pass(calls, Raised(DuplicateKeyword(Clash(cfg))));
      }
      var call := Attempt(frags[i].value, cfg);
      match driver(i) {
        case PgConnected(h) =>
          return Pass(calls + [call], Found(h));
        case PgOtherError(msg) =>
          return Pass(calls + [call], Raised(PgDriverError(msg)));
        case PgOperationalError =>
          var rest := Failover(frags, i + 1, cfg, driver);
          assert calls + [call] + rest.calls == calls + ([call] + rest.calls);
          calls := calls + [call];
          i := i + 1;
      }
    }
    return Pass(calls, Exhausted);
  }


  /** Fragments the loop passes over do not change how it ends; they only
      add one attempt each. */
  lemma {:induction false} FailoverSkip(frags: seq<Result<string, Error>>, i: nat, k: nat, cfg: ConnectionConfig, driver: nat -> PgReply)
    requires i <= k <= |frags|
    requires forall j :: i <= j < k ==> Continues(frags, j, cfg, driver)
    ensures Failover(frags, i, cfg, driver).exit == Failover(frags, k, cfg, driver).exit
    ensures |Failover(frags, i, cfg, driver).calls| == (k - i) + |Failover(frags, k, cfg, driver).calls|
    decreases k - i
  {
    if i < k {
      FailoverStep(frags, i, cfg, driver);
      FailoverSkip(frags, i + 1, k, cfg, driver);
    }
  }

  /** The first fragment the driver accepts wins: every fragment before it
      was attempted once, in order, and the handle returned is its own. */
  lemma FirstSuccessWins(c: Connector, driver: nat -> PgReply, k: nat, h: Handle)
    requires var frags := Dsn.ParseDsn(c.cfg.dsn);
      && k < |frags|
      && (forall j :: 0 <= j < k ==> Continues(frags, j, c.cfg, driver))
      && frags[k].Ok? && Clash(c.cfg) == {} && driver(k) == PgConnected(h)
    ensures var r := Connect(c, driver);
      r.result == Ok(h) && |r.calls| == k + 1 && r.connector.connection == Some(h)
  {
    var frags := Dsn.ParseDsn(c.cfg.dsn);
    FailoverSkip(frags, 0, k, c.cfg, driver);
    FailoverStep(frags, k, c.cfg, driver);
  }

  /** When fragment k is reached after only operational failures and the
      driver raises anything but `OperationalError`, that exception escapes
      unchanged after k+1 attempts and the connector is left as it was. */
  lemma OtherErrorEscapes(c: Connector, driver: nat -> PgReply, k: nat, msg: string)
    requires var frags := Dsn.ParseDsn(c.cfg.dsn);
      && k < |frags|
      && (forall j :: 0 <= j < k ==> Continues(frags, j, c.cfg, driver))
      && frags[k].Ok? && Clash(c.cfg) == {} && driver(k) == PgOtherError(msg)
    ensures var r := Connect(c, driver);
      r.result == Err(PgDriverError(msg)) && |r.calls| == k + 1 && r.connector == c
  {
    var frags := Dsn.ParseDsn(c.cfg.dsn);
    FailoverSkip(frags, 0, k, c.cfg, driver);
    FailoverStep(frags, k, c.cfg, driver);
  }

  /** A `params` key that repeats an explicit keyword makes the call itself
      raise `TypeError`: the driver is never called, and when the first token
      parses that is the exception `connect` raises. */
  lemma ClashRaises(c: Connector, driver: nat -> PgReply)
    requires Clash(c.cfg) != {}
    ensures var r := Connect(c, driver); r.calls == [] && r.result.Err? && r.connector == c
    ensures Dsn.ParseDsn(c.cfg.dsn)[0].Ok? ==> Connect(c, driver).result == Err(DuplicateKeyword(Clash(c.cfg)))
  {
    FailoverStep(Dsn.ParseDsn(c.cfg.dsn), 0, c.cfg, driver);
  }

  /** When every fragment fails with `OperationalError`, each was attempted
      exactly once and a fresh connector raises `AttributeError`, not the last
      driver error. */
  lemma AllHostsFail(c: Connector, driver: nat -> PgReply)
    requires c.connection.None?
    requires var frags := Dsn.ParseDsn(c.cfg.dsn);
      forall j :: 0 <= j < |frags| ==> Continues(frags, j, c.cfg, driver)
    ensures var r := Connect(c, driver);
      r.result == Err(AttributeError) && |r.calls| == |Dsn.ParseDsn(c.cfg.dsn)|
  {
    var frags := Dsn.ParseDsn(c.cfg.dsn);
    FailoverSkip(frags, 0, |frags|, c.cfg, driver);
  }

  /** On a connector that already holds a handle, a pass where every
      fragment fails returns that earlier handle. */
  lemma AllHostsFailKeepsStaleHandle(c: Connector, driver: nat -> PgReply, earlier: Handle)
    requires c.connection == Some(earlier)
    requires var frags := Dsn.ParseDsn(c.cfg.dsn);
      forall j :: 0 <= j < |frags| ==> Continues(frags, j, c.cfg, driver)
    ensures Connect(c, driver).result == Ok(earlier)
  {
    var frags := Dsn.ParseDsn(c.cfg.dsn);
    FailoverSkip(frags, 0, |frags|, c.cfg, driver);
  }

  /** A malformed token raises its unpacking error only when the loop reaches
      it, that is, after every earlier fragment was attempted and failed. */
  lemma MalformedTokenRaisesWhenReached(c: Connector, driver: nat -> PgReply, k: nat)
    requires var frags := Dsn.ParseDsn(c.cfg.dsn);
      && k < |frags|
      && (forall j :: 0 <= j < k ==> Continues(frags, j, c.cfg, driver))
      && frags[k].Err?
    ensures var r := Connect(c, driver);
      r.result == Err(Dsn.ParseDsn(c.cfg.dsn)[k].error) && |r.calls| == k
  {
    var frags := Dsn.ParseDsn(c.cfg.dsn);
    FailoverSkip(frags, 0, k, c.cfg, driver);
    FailoverStep(frags, k, c.cfg, driver);
  }

  /** Once the loop has found a handle, the fragments after it are never
      read: any sequence agreeing up to the winning fragment ends the same. */
  lemma {:induction false} FoundIgnoresLaterFragments(
    frags: seq<Result<string, Error>>, frags': seq<Result<string, Error>>, i: nat, cfg: ConnectionConfig, driver: nat -> PgReply)
    requires i <= |frags| && i <= |frags'|
    requires Failover(frags, i, cfg, driver).exit.Found?
    requires i + |Failover(frags, i, cfg, driver).calls| <= |frags'|
    requires forall j :: i <= j < i + |Failover(frags, i, cfg, driver).calls| ==> frags'[j] == frags[j]
    ensures Failover(frags', i, cfg, driver) == Failover(frags, i, cfg, driver)
    decreases |frags| - i
  {
    FailoverStep(frags, i, cfg, driver);
    FailoverStep(frags', i, cfg, driver);
    if driver(i).PgOperationalError? {
      FoundIgnoresLaterFragments(frags, frags', i + 1, cfg, driver);
    }
  }

  /** Appending further tokens, well-formed or not, after a DSN whose pass
      found a handle changes nothing about the attempts or the result. */
  lemma MalformedTailIgnored(c: Connector, driver: nat -> PgReply, tail: string)
    requires Failover(Dsn.ParseDsn(c.cfg.dsn), 0, c.cfg, driver).exit.Found?
    ensures var c' := c.(cfg := c.cfg.(dsn := c.cfg.dsn + "," + tail));
      Connect(c', driver).calls == Connect(c, driver).calls
      && Connect(c', driver).result == Connect(c, driver).result
  {
    var c' := c.(cfg := c.cfg.(dsn := c.cfg.dsn + "," + tail));
    var frags := Dsn.ParseDsn(c.cfg.dsn);
    Dsn.ParseDsnAppend(c.cfg.dsn, tail);
    assert Clash(c'.cfg) == Clash(c.cfg);
    assert forall call :: Attempt(call, c'.cfg) == Attempt(call, c.cfg);
    FoundIgnoresLaterFragments(frags, Dsn.ParseDsn(c'.cfg.dsn), 0, c.cfg, driver);
    FailoverCfgIrrelevantDsn(Dsn.ParseDsn(c'.cfg.dsn), 0, c.cfg, c'.cfg, driver);
  }

  /** The loop reads the configuration only through the call it builds and
      the keyword clash, neither of which involves the DSN. */
  lemma {:induction false} FailoverCfgIrrelevantDsn(
    frags: seq<Result<string, Error>>, i: nat, cfg: ConnectionConfig, cfg': ConnectionConfig, driver: nat -> PgReply)
    requires i <= |frags|
    requires cfg' == cfg.(dsn := cfg'.dsn)
    ensures Failover(frags, i, cfg', driver) == Failover(frags, i, cfg, driver)
    decreases |frags| - i
  {
    if i < |frags| {
      FailoverCfgIrrelevantDsn(frags, i + 1, cfg, cfg', driver);
    }
  }
}

=== FILE: pystr.dfy ===
/** Python's `str.split(sep)` with an explicit one-character separator, and
    its inverse `sep.join(parts)`.

    With an explicit separator Python keeps empty pieces: `"".split(",")` is
    `[""]`, `"a,".split(",")` is `["a", ""]` and `"a:b:c".split(":")` has three
    pieces. The number of pieces is always one more than the number of
    separators. */
module PyStr {

  /** The pieces of `s` between occurrences of `sep`, in order. */
  function Split(s: string, sep: char): (parts: seq<string>)
    ensures |parts| >= 1
    ensures forall i :: 0 <= i < |parts| ==> sep !in parts[i]
    decreases |s|
  {
    if |s| == 0 then [""]
    else
      var rest := Split(s[1..], sep);
      if s[0] == sep then [""] + rest
      else [[s[0]] + rest[0]] + rest[1..]
  }

  /** `sep.join(parts)`: the pieces glued back together with `sep` between them. */
  function Join(parts: seq<string>, sep: char): string
    requires |parts| >= 1
  {
    if |parts| == 1 then parts[0] else parts[0] + [sep] + Join(parts[1..], sep)
  }

  /** There is one more piece than there are separators. */
  lemma {:induction false} SplitCount(s: string, sep: char)
    ensures |Split(s, sep)| == multiset(s)[sep] + 1
    decreases |s|
  {
    if |s| > 0 {
      SplitCount(s[1..], sep);
      assert s == [s[0]] + s[1..];
      assert multiset(s) == multiset{s[0]} + multiset(s[1..]);
    }
  }

  /** Joining the pieces of a split restores the original string. */
  lemma {:induction false} JoinSplit(s: string, sep: char)
    ensures Join(Split(s, sep), sep) == s
    decreases |s|
  {
    if |s| > 0 {
      var rest := Split(s[1..], sep);
      JoinSplit(s[1..], sep);
      if s[0] == sep {
        assert ([""] + rest)[1..] == rest;
      } else {
        var parts := [[s[0]] + rest[0]] + rest[1..];
        if |rest| > 1 {
          assert parts[1..] == rest[1..];
          assert Join(rest, sep) == rest[0] + [sep] + Join(rest[1..], sep);
        }
      }
    }
  }

  /** A string free of the separator splits into itself alone. */
  lemma SplitWithoutSeparator(s: string, sep: char)
    requires sep !in s
    ensures Split(s, sep) == [s]
  {
    assert sep !in multiset(s);
    SplitCount(s, sep);
    JoinSplit(s, sep);
  }

  /** One step of `Split`: the first character either starts a new piece
      (it is the separator) or extends the first piece. */
  lemma SplitCons(c: char, t: string, sep: char)
    ensures Split([c] + t, sep) ==
      if c == sep then [""] + Split(t, sep)
      else [[c] + Split(t, sep)[0]] + Split(t, sep)[1..]
  {
    assert ([c] + t)[1..] == t;
  }

  /** The list step behind `SplitCons`, taken over a concatenation of piece
      lists: extending the first piece commutes with appending more pieces. */
  lemma ConsPieces(c: char, rt: seq<string>, rb: seq<string>, sep: char)
    requires |rt| >= 1
    ensures (if c == sep then [""] + (rt + rb) else [[c] + (rt + rb)[0]] + (rt + rb)[1..])
         == (if c == sep then [""] + rt else [[c] + rt[0]] + rt[1..]) + rb
  {
    if c != sep {
      assert (rt + rb)[0] == rt[0];
      assert (rt + rb)[1..] == rt[1..] + rb;
    }
  }

  /** Splitting distributes over a separator occurrence: the pieces of
      `a + sep + b` are the pieces of `a` followed by the pieces of `b`. */
  lemma {:induction false} SplitAtSeparator(a: string, b: string, sep: char)
    ensures Split(a + [sep] + b, sep) == Split(a, sep) + Split(b, sep)
    decreases |a|
  {
    if |a| == 0 {
      assert a + [sep] + b == [sep] + b;
      SplitCons(sep, b, sep);
    } else {
      var c, t := a[0], a[1..];
      assert a == [c] + t;
      assert a + [sep] + b == [c] + (t + [sep] + b);
      SplitAtSeparator(t, b, sep);
      ConsPieces(c, Split(t, sep), Split(b, sep), sep);
      SplitCons(c, t + [sep] + b, sep);
      SplitCons(c, t, sep);
    }
  }

  /** Splitting a join of separator-free pieces gives back the pieces. */
  lemma {:induction false} SplitJoin(parts: seq<string>, sep: char)
    requires |parts| >= 1
    requires forall i :: 0 <= i < |parts| ==> sep !in parts[i]
    ensures Split(Join(parts, sep), sep) == parts
    decreases |parts|
  {
    SplitWithoutSeparator(parts[0], sep);
    if |parts| > 1 {
      SplitJoin(parts[1..], sep);
      SplitAtSeparator(parts[0], Join(parts[1..], sep), sep);
      assert parts == [parts[0]] + parts[1..];
    }
  }
}

=== FILE: resolver.dfy ===
/** The connector table and the scoped resolver `get`.

    `get` is a generator-based context manager without `try`/`finally`: it
    looks the flavour up, builds the connector, calls `connect()` once, yields
    the handle to the caller's block and, only when that block finishes
    normally, calls `close()`. The model records the context manager's
    visible steps as an event trace and the driver calls separately. */
module Resolver {
  import opened Wrappers
  import opened Types
  import Exasol
  import Postgres
  import Dsn
  import PyStr

  /** The flavours the connector table knows, and the class each builds. */
  const Registry: map<string, ConnectorClass> := map["exasol" := ConnectExasol, "postgres" := ConnectPostgres]

  /** `_CONNECTORS[cfg.flavour]`: an unknown flavour raises `KeyError`,
      which `get` logs and re-raises. */
  function Lookup(flavour: string): (r: Result<ConnectorClass, Error>)
    ensures r.Ok? <==> flavour == "exasol" || flavour == "postgres"
    ensures r == Ok(ConnectExasol) <==> flavour == "exasol"
    ensures r == Ok(ConnectPostgres) <==> flavour == "postgres"
    ensures r.Err? ==> r.error == KeyError(flavour)
  {
    if flavour in Registry then Ok(Registry[flavour]) else Err(KeyError(flavour))
  }

  /** The answers the two drivers give: the analytic driver's reply to its
      single attempt, and the relational driver's reply to each attempt. */
  datatype Drivers = Drivers(exasol: Exasol.ExaReply, postgres: nat -> Postgres.PgReply)

  /** `connector.connect()`, dispatched on the connector's class. */
  function Connect(c: Connector, drivers: Drivers): (r: ConnectRun)
    ensures r.connector.cls == c.cls && r.connector.cfg == c.cfg
    ensures r.result.Ok? ==> r.connector.connection == Some(r.result.value)
  {
    match c.cls
    case ConnectExasol => Exasol.Connect(c, drivers.exasol)
    case ConnectPostgres => Postgres.Connect(c, drivers.postgres)
  }

  /** How the caller's `with` block ends. */
  datatype Block = Completes | Raises(msg: string)

  /** The steps of `get` visible from outside: `connect()` on the connector
      of a class, handing a handle to the block, `close()` of a handle. */
  datatype Event = ConnectCalled(cls: ConnectorClass) | Yielded(h: Handle) | Closed(h: Handle)

  /** One use of `with get(name) as conn: <block>`: the events, the driver
      calls, and the exception that escaped the `with` statement, if any. */
  datatype GetRun = GetRun(trace: seq<Event>, calls: seq<Call>, raised: Option<Error>)

  /** `connect()` on a freshly built connector of class `cls`. */
  function Opening(cls: ConnectorClass, cfg: ConnectionConfig, drivers: Drivers): ConnectRun {
    Connect(NewConnector(cls, cfg), drivers)
  }

  /** Some event of the trace is a `close()`. */
  predicate HasClose(trace: seq<Event>) {
    exists i :: 0 <= i < |trace| && trace[i].Closed?
  }

  /** `get(name)` used in a `with` statement, for the configuration `cfg`
      that `config.load(name)` returned. */
  function Get(cfg: ConnectionConfig, drivers: Drivers, block: Block): (r: GetRun)
    ensures Lookup(cfg.flavour).Err? <==> r.trace == []
    ensures r.trace == [] ==> r.calls == [] && r.raised == Some(KeyError(cfg.flavour))
    ensures r.trace != [] ==>
      var cls := Lookup(cfg.flavour).value;
      && r.trace[0] == ConnectCalled(cls)
      && r.calls == Opening(cls, cfg, drivers).calls
      && (Opening(cls, cfg, drivers).result.Err? ==>
            r.trace == [ConnectCalled(cls)] && r.raised == Some(Opening(cls, cfg, drivers).result.error))
      && (Opening(cls, cfg, drivers).result.Ok? ==>
            |r.trace| >= 2 && r.trace[1] == Yielded(Opening(cls, cfg, drivers).result.value))
    ensures |r.trace| <= 3
    ensures HasClose(r.trace) <==> r.raised.None?
    ensures r.raised.None? ==> |r.trace| == 3 && r.trace[1].Yielded? && r.trace[2] == Closed(r.trace[1].h)
    ensures block.Raises? && |r.trace| >= 2 ==> r.raised == Some(BlockError(block.msg))
    ensures Lookup(cfg.flavour).Ok? && Opening(Lookup(cfg.flavour).value, cfg, drivers).result.Ok? ==>
      (r.raised.None? <==> block.Completes?)
  {
    match Lookup(cfg.flavour)
    case Err(e) => GetRun([], [], Some(e))
    case Ok(cls) =>
      var run := Connect(NewConnector(cls, cfg), drivers);
      match run.result
      case Err(e) => GetRun([ConnectCalled(cls)], run.calls, Some(e))
      case Ok(h) =>
        match block
        case Raises(msg) => GetRun([ConnectCalled(cls), Yielded(h)], run.calls, Some(BlockError(msg)))
        case Completes =>
          match Close(run.connector)
          case Ok(closed) =>
            var trace := [ConnectCalled(cls), Yielded(h), Closed(closed)];
            assert trace[2].Closed?;
            GetRun(trace, run.calls, None)
          case Err(e) => GetRun([ConnectCalled(cls), Yielded(h)], run.calls, Some(e))
  }

  /** Whatever the class, the connector's `close()` after a successful
      `connect()` closes exactly the handle that `connect()` returned. */
  lemma ConnectThenClose(c: Connector, drivers: Drivers)
    requires Connect(c, drivers).result.Ok?
    ensures Close(Connect(c, drivers).connector) == Ok(Connect(c, drivers).result.value)
  {
  }

  /** For every configuration whose flavour resolves and whose `connect()`
      succeeds, a block that completes sees exactly connect, yield of the
      handle, close of that handle, and the `with` statement raises nothing;
      the driver calls are those of the connector's `connect()`. */
  lemma GetCompletes(cfg: ConnectionConfig, drivers: Drivers)
    requires Lookup(cfg.flavour).Ok?
    requires Opening(Lookup(cfg.flavour).value, cfg, drivers).result.Ok?
    ensures var cls := Lookup(cfg.flavour).value;
      var run := Opening(cls, cfg, drivers);
      Get(cfg, drivers, Completes) ==
        GetRun([ConnectCalled(cls), Yielded(run.result.value), Closed(run.result.value)], run.calls, None)
  {
    var cls := Lookup(cfg.flavour).value;
    ConnectThenClose(NewConnector(cls, cfg), drivers);
  }

  /** For every configuration whose flavour resolves and whose `connect()`
      succeeds, a block that raises sees connect and the yield only: its
      exception escapes and `close()` is never called. */
  lemma GetBlockRaises(cfg: ConnectionConfig, drivers: Drivers, msg: string)
    requires Lookup(cfg.flavour).Ok?
    requires Opening(Lookup(cfg.flavour).value, cfg, drivers).result.Ok?
    ensures var cls := Lookup(cfg.flavour).value;
      var run := Opening(cls, cfg, drivers);
      Get(cfg, drivers, Raises(msg)) ==
        GetRun([ConnectCalled(cls), Yielded(run.result.value)], run.calls, Some(BlockError(msg)))
  {
  }

  /** A test configuration: user `test`, password `IamAwizard`, no schema,
      no dbname, no extra parameters. */
  function TestConfig(name: string, flavour: string, dsn: string): ConnectionConfig {
    ConnectionConfig(name, flavour, dsn, "test", "IamAwizard", None, None, map[])
  }

  /** Two endpoints on one DSN parse to their two fragments. */
  lemma TwoEndpointDsn(h1: string, p1: string, h2: string, p2: string, dsn: string)
    requires Dsn.Plain(Dsn.Endpoint(h1, p1)) && Dsn.Plain(Dsn.Endpoint(h2, p2))
    requires dsn == h1 + ":" + p1 + "," + h2 + ":" + p2
    ensures Dsn.ParseDsn(dsn) == [Ok(Dsn.Fragment(h1, p1)), Ok(Dsn.Fragment(h2, p2))]
  {
    var eps := [Dsn.Endpoint(h1, p1), Dsn.Endpoint(h2, p2)];
    var tokens := seq(|eps|, i requires 0 <= i < |eps| => Dsn.Token(eps[i]));
    assert tokens == [h1 + ":" + p1, h2 + ":" + p2];
    assert tokens[1..] == [h2 + ":" + p2];
    assert PyStr.Join(tokens, ',') == (h1 + ":" + p1) + [','] + (h2 + ":" + p2);
    assert Dsn.DsnOf(eps) == dsn;
    Dsn.ParseDsnOfEndpoints(eps);
  }

  /** A relational `get` whose first accepting host is fragment `k`, with a
      block that completes: connect, yield that host's handle, close it. */
  lemma PostgresGetCompletes(cfg: ConnectionConfig, drivers: Drivers, k: nat, h: Handle)
    requires cfg.flavour == "postgres"
    requires var frags := Dsn.ParseDsn(cfg.dsn);
      && k < |frags|
      && (forall j :: 0 <= j < k ==> Postgres.Continues(frags, j, cfg, drivers.postgres))
      && frags[k].Ok? && Postgres.Clash(cfg) == {} && drivers.postgres(k) == Postgres.PgConnected(h)
    ensures var r := Get(cfg, drivers, Completes);
      && r.trace == [ConnectCalled(ConnectPostgres), Yielded(h), Closed(h)]
      && r.raised == None
      && |r.calls| == k + 1
      && forall j :: 0 <= j <= k ==> r.calls[j] == Postgres.Attempt(Dsn.ParseDsn(cfg.dsn)[j].value, cfg)
  {
    Postgres.FirstSuccessWins(NewConnector(ConnectPostgres, cfg), drivers.postgres, k, h);
  }

  /** A single-endpoint relational connection (`127.0.0.1:5436` in the
      tests) whose host accepts: one call with the fragment
      `host=<host> port=<port>` and `dbname=None`, then connect, yield, close. */
  lemma SimplePostgres(host: string, port: string, drivers: Drivers, h: Handle)
    requires Dsn.Plain(Dsn.Endpoint(host, port))
    requires drivers.postgres(0) == Postgres.PgConnected(h)
    ensures var r := Get(TestConfig("postgres_simple", "postgres", host + ":" + port), drivers, Completes);
      && r.calls == [PgCall(Dsn.Fragment(host, port), "test", "IamAwizard", VNone, map[])]
      && r.trace == [ConnectCalled(ConnectPostgres), Yielded(h), Closed(h)]
      && r.raised == None
  {
    var cfg := TestConfig("postgres_simple", "postgres", host + ":" + port);
    var eps := [Dsn.Endpoint(host, port)];
    assert Dsn.DsnOf(eps) == cfg.dsn;
    Dsn.ParseDsnOfEndpoints(eps);
    PostgresGetCompletes(cfg, drivers, 0, h);
  }

  /** Failover (`127.0.0.1:5436,127.0.0.2:5436` in the tests): the first host
      refuses, the second accepts; both fragments are attempted in order with
      the same arguments and the handle is the second host's. */
  lemma MultiServerPostgres(h1: string, p1: string, h2: string, p2: string, drivers: Drivers, h: Handle)
    requires Dsn.Plain(Dsn.Endpoint(h1, p1)) && Dsn.Plain(Dsn.Endpoint(h2, p2))
    requires drivers.postgres(0) == Postgres.PgOperationalError
    requires drivers.postgres(1) == Postgres.PgConnected(h)
    ensures var r := Get(TestConfig("postgres_multi_server", "postgres", h1 + ":" + p1 + "," + h2 + ":" + p2), drivers, Completes);
      && r.calls == [PgCall(Dsn.Fragment(h1, p1), "test", "IamAwizard", VNone, map[]),
                     PgCall(Dsn.Fragment(h2, p2), "test", "IamAwizard", VNone, map[])]
      && r.trace == [ConnectCalled(ConnectPostgres), Yielded(h), Closed(h)]
      && r.raised == None
  {
    var cfg := TestConfig("postgres_multi_server", "postgres", h1 + ":" + p1 + "," + h2 + ":" + p2);
    TwoEndpointDsn(h1, p1, h2, p2, cfg.dsn);
    assert Postgres.Continues(Dsn.ParseDsn(cfg.dsn), 0, cfg, drivers.postgres);
    PostgresGetCompletes(cfg, drivers, 1, h);
  }

  /** With the schema absent or empty (any falsy value) and no parameters,
      the analytic driver receives the DSN verbatim and `compression = true`
      only. */
  lemma EmptySchemaExasol(schema: Option<Value>, drivers: Drivers, h: Handle)
    requires schema.None? || !Truthy(schema.value)
    requires drivers.exasol == Exasol.ExaConnected(h)
    ensures var cfg := TestConfig("exasol_empty_schema", "exasol", "127.0.0.1:5436").(schema := schema);
      var r := Get(cfg, drivers, Completes);
      && r.calls == [ExaCall("127.0.0.1:5436", "test", "IamAwizard", map["compression" := VBool(true)])]
      && r.trace == [ConnectCalled(ConnectExasol), Yielded(h), Closed(h)]
  {
    Exasol.DefaultExtraParams(TestConfig("exasol_empty_schema", "exasol", "127.0.0.1:5436").(schema := schema));
  }

  /** A multi-host analytic DSN is not split, and a schema is passed on. */
  lemma MultiServerExasol(drivers: Drivers, h: Handle)
    requires drivers.exasol == Exasol.ExaConnected(h)
    ensures var cfg := TestConfig("exasol_multi_server", "exasol", "127.0.0.1:5436,127.0.0.2:5437").(schema := Some(VStr("s")));
      var r := Get(cfg, drivers, Completes);
      && r.calls == [ExaCall("127.0.0.1:5436,127.0.0.2:5437", "test", "IamAwizard",
                             map["compression" := VBool(true), "schema" := VStr("s")])]
      && r.trace == [ConnectCalled(ConnectExasol), Yielded(h), Closed(h)]
  {
    var cfg := TestConfig("exasol_multi_server", "exasol", "127.0.0.1:5436,127.0.0.2:5437").(schema := Some(VStr("s")));
    Exasol.SchemaExtraParams(cfg, "s");
  }

  /** An analytic driver failure escapes `get` unchanged after the single
      attempt; nothing is yielded or closed. */
  lemma ExasolFailurePropagates(cfg: ConnectionConfig, drivers: Drivers, block: Block, f: ExaFailure)
    requires cfg.flavour == "exasol" && Exasol.Clash(cfg) == {}
    requires drivers.exasol == Exasol.ExaRaised(f)
    ensures var r := Get(cfg, drivers, block);
      && r.trace == [ConnectCalled(ConnectExasol)]
      && r.calls == [Exasol.DriverCall(cfg)]
      && r.raised == Some(ExaDriverError(f))
  {
  }

  /** When every relational host fails, `get` raises `AttributeError` after
      attempting each fragment once; the block never runs and nothing is
      closed. */
  lemma AllHostsFailInGet(cfg: ConnectionConfig, drivers: Drivers, block: Block)
    requires cfg.flavour == "postgres"
    requires var frags := Dsn.ParseDsn(cfg.dsn);
      forall j :: 0 <= j < |frags| ==> Postgres.Continues(frags, j, cfg, drivers.postgres)
    ensures var r := Get(cfg, drivers, block);
      && r.trace == [ConnectCalled(ConnectPostgres)]
      && |r.calls| == |Dsn.ParseDsn(cfg.dsn)|
      && r.raised == Some(AttributeError)
  {
    Postgres.AllHostsFail(NewConnector(ConnectPostgres, cfg), drivers.postgres);
  }
}

=== FILE: types.dfy ===
/** The records the connectors work on: configuration values, the connection
    configuration loaded for a name, opaque driver handles, the calls made to
    the two drivers, connector state and the exceptions that can escape. */
module Types {
  import opened Wrappers

  /** A scalar configuration value, as the configuration loader hands it over. */
  datatype Value = VNone | VBool(b: bool) | VInt(i: int) | VStr(s: string)

  /** Python truthiness of a configuration value: the falsy scalars are
      exactly `None`, `False`, `0` and the empty string. */
  function Truthy(v: Value): (t: bool)
    ensures !t <==> v in {VNone, VBool(false), VInt(0), VStr("")}
  {
    match v
    case VNone => false
    case VBool(b) => b
    case VInt(i) => i != 0
    case VStr(s) => |s| > 0
  }

  /** The configuration record of one named connection. `schema` and `dbname`
      are `None` when the key is absent from the record. */
  datatype ConnectionConfig = ConnectionConfig(
    name: string,
    flavour: string,
    dsn: string,
    user: string,
    password: string,
    schema: Option<Value>,
    dbname: Option<Value>,
    params: map<string, Value>)

  /** The two connector classes the registry can construct. */
  datatype ConnectorClass = ConnectExasol | ConnectPostgres

  /** An opaque live connection returned by a driver. */
  datatype Handle = Handle(id: nat)

  /** The exceptions raised by the analytic (Exasol) driver. The connector
      logs the first two and re-raises all of them unchanged. */
  datatype ExaFailure =
    | ExaCommunicationError(msg: string)
    | ExaRequestError(msg: string)
    | ExaOtherError(msg: string)

  /** The exceptions that can escape `connect` or the scoped resolver. */
  datatype Error =
      /** Unknown flavour in the connector table. */
    | KeyError(key: string)
      /** A DSN token did not split on `:` into exactly two parts. */
    | UnpackError(parts: nat)
      /** `self.connection` read before it was ever assigned. */
    | AttributeError
      /** Config params repeat a keyword the call site already passes. */
    | DuplicateKeyword(names: set<string>)
      /** A failure of the analytic driver, re-raised unchanged. */
    | ExaDriverError(failure: ExaFailure)
      /** A relational driver failure other than `OperationalError`. */
    | PgDriverError(msg: string)
      /** An exception raised by the caller's own block. */
    | BlockError(msg: string)

  /** One call into a driver, with the arguments it received. */
  datatype Call =
    | ExaCall(dsn: string, user: string, password: string, extra: map<string, Value>)
    | PgCall(conninfo: string, user: string, password: string, dbname: Value, extra: map<string, Value>)

  /** A connector instance: the class it was built from, the configuration it
      owns and the handle its last successful `connect` assigned, if any. */
  datatype Connector = Connector(cls: ConnectorClass, cfg: ConnectionConfig, connection: Option<Handle>)

  /** What one `connect()` did: the driver calls made in order, the connector
      state afterwards, and the handle returned or the exception raised. */
  datatype ConnectRun = ConnectRun(calls: seq<Call>, connector: Connector, result: Result<Handle, Error>)

  /** A freshly constructed connector: it owns `cfg` and holds no handle yet. */
  function NewConnector(cls: ConnectorClass, cfg: ConnectionConfig): Connector {
    Connector(cls, cfg, None)
  }

  /** `close()`, shared by both connector classes: closes the held handle, and
      raises `AttributeError` when no handle was ever assigned. The result is
      the handle that was closed. */
  function Close(c: Connector): (r: Result<Handle, Error>)
    ensures r.Ok? <==> c.connection.Some?
    ensures r.Ok? ==> r.value == c.connection.value
    ensures r.Err? ==> r.error == AttributeError
  {
    match c.connection
    case Some(h) => Ok(h)
    case None => Err(AttributeError)
  }
}

=== FILE: wrappers.dfy ===
/** Optional values and step outcomes used throughout the model: a value that may be
    absent, and the outcome of a step that may raise. */
module Wrappers {

  /** A value that may be missing (Python `None` for a key that is absent). */
  datatype Option<+T> = None | Some(value: T) {

    /** The wrapped value, or `default` when there is none. */
    function GetOr(default: T): T {
      match this
      case Some(v) => v
      case None => default
    }
  }

  /** The outcome of a step: a value, or the exception it raised. */
  datatype Result<+T, +E> = Ok(value: T) | Err(error: E)
}
